=== FILE: README.md ===
# Obstacle segmentation core of arc_obstacle_detection, in Dafny

This project models the per-frame obstacle segmentation of `Obstacle_Detection`
(src/obstacle_detection.cpp) with the ROS transport removed. One frame is a pure
computation over a list of lidar points in four stages:

1. **Training** (`Training`, `Histogram`). Each point whose elevation falls in
   one of the seven ring windows `(-15.1 + 2j, -14.9 + 2j)` degrees, and which is
   inside the lateral corridor `-y_limit < y < y_limit`, feeds its range into
   one of 14 adaptive distance histograms: Front ring `j` for `x > 0`, Back ring
   `j` for `x < 0`. A histogram is first-fit, running-mean clustering. A sample
   merges into the first bin whose closed band `[c - tol(j), c + tol(j)]`
   contains it, with `tol(j) = tolerance_m * (1 + tolerance_factor * j)`.
   Otherwise a new bin `(d, 1)` is appended.
2. **Background reduction** (`Background`). Each histogram becomes one range:
   the centre of the first bin of maximal count, or 0.0 when it is empty.
3. **Filter** (`ObstacleFilter`). The whole cloud is walked again. A point is
   emitted when it is in a ring window and in the front wedge (`x > 0`,
   `-x < y < x`) or the back wedge (`x < 0`, `x < y < -x`), and its range is
   outside the open band around that ring's front or back background.
4. **Grid** (`GridMap`). Filtered points inside the box `-20 < x < 20`,
   `-6 < -y < 6` mark their cell of a 120 x 400 grid of 0.10 m cells with 100.
   All other cells are 0.

`Pipeline.Scan` chains the four stages. Points are records carrying `x, y, z`
and two precomputed values: the range `d` and the elevation `alpha` in degrees.
`alpha` is `None` where the source computes `asin(0/0)` (zero range), which is
NaN and fails every window test. The 14 histograms are a sequence of slots laid
out like the source's `inter_d` array: slot `j` is Front ring `j` and slot
`7 + j` is Back ring `j`. The three tunables form a `Config` (defaults 1.5,
1.0, 0.12). All arithmetic is on exact reals.

Two consequences of the code are easy to miss:

- Points in no ring window, points of zero range, points in neither wedge,
  and points on the diagonals `y = x` or `y = -x` are **dropped** by the
  filter. The filter emits a point only at cpp:129 and cpp:138, inside the
  front-wedge and back-wedge branches of a matched window.
- The filter's `angle_assigned` flag is set to false at cpp:120 and never set
  to true, so the ring loop visits all seven rings. No elevation lies in two
  windows (`Geometry.WindowsDisjoint`), so `ObstacleFilter.FilterPoint` still
  emits a point at most once.

The training pass sets its own flag after a match (cpp:222, cpp:227), but
with disjoint windows that only saves iterations.

## Model

| member | source | states |
|---|---|---|
| `Histogram.InsertFrom` | src/obstacle_detection.cpp:88-104 | The bin loop, resumed at bin i past bands that exclude d, merges d into the lowest-index bin whose closed band contains it. Every other bin is unchanged. If no band contains d, (d, 1) is appended. |
| `Histogram.Merge` | src/obstacle_detection.cpp:93-95 | Absorbing a sample raises the count by one and moves the centre onto the segment between the old centre and the sample, never past either. |
| `Histogram.Insert` | src/obstacle_detection.cpp:77-107 | An empty histogram becomes [(d, 1)]. (d, 1) is appended exactly when no closed band contains d. Otherwise the first containing bin absorbs d with the running-mean update, every earlier band excludes d, and all other bins are unchanged. |
| `Histogram.InsertCounts` | src/obstacle_detection.cpp:81-104 | One insertion raises the total count by exactly one and the number of bins by at most one. |
| `Histogram.InsertAllCounts` | src/obstacle_detection.cpp:81-104 | After any sequence of insertions, the counts sum to the previous total plus the number of samples. The number of bins grows by at most the number of samples. |
| `Histogram.InsertAllAppend` | src/obstacle_detection.cpp:77-107 | Inserting a concatenation of samples is the same as inserting the first part, then the second. |
| `Histogram.IdenticalSamples` | src/obstacle_detection.cpp:81-97 | N identical samples r, N >= 1, with a non-negative tolerance, give the single bin (r, N). |
| `Histogram.TwoClusters` | src/obstacle_detection.cpp:88-104 | n1 copies of r1, then n2 copies of r2, with the ranges more than the tolerance apart, give exactly the bins (r1, n1), (r2, n2) in insertion order. |
| `Histogram.MergeMean` | src/obstacle_detection.cpp:93-95 | If a bin's centre is the mean of its samples and its count is their number, the merged bin's centre is the mean of those samples plus d. Its count is their number plus one. |
| `Histogram.CentresAreMeans` | src/obstacle_detection.cpp:77-107 | After inserting any samples into an empty histogram, the samples split into one group per bin. Every sample is in exactly one group. Each bin's count is the size of its group and its centre the group's mean. |
| `Background.ReduceFrom` | src/obstacle_detection.cpp:243-248 | The max-count loop, resumed at bin i with running best count `sum`, keeps its running best if no later count exceeds `sum`. Otherwise it returns the centre of the first bin of maximal count among the remaining bins. |
| `Background.Reduce` | src/obstacle_detection.cpp:235-263 | The background of a histogram is 0.0 when no bin has a positive count, including the empty histogram. Otherwise it is the centre of the bin whose count exceeds every earlier count and is at least every later one, so ties go to the earliest bin. |
| `Background.Backgrounds` | src/obstacle_detection.cpp:239-263 | Each of the 14 background ranges is 0.0 when its histogram has no bin of positive count (it keeps its initial value). Otherwise it is the centre of a bin of maximal count that no earlier bin matches, so ties go to the earliest bin. |
| `Background.FirstMaxUnique` | src/obstacle_detection.cpp:243-248 | At most one bin is the first bin of maximal count. |
| `Background.ReduceSingle` | src/obstacle_detection.cpp:243-248 | A one-bin histogram has that bin's centre as its background. |
| `Background.ReduceTwo` | src/obstacle_detection.cpp:243-248 | Of two bins, the background is the centre of the one with the larger count. On a tie it is the first bin's centre. |
| `Geometry.WindowsDisjoint` | src/obstacle_detection.cpp:217-218 | No elevation lies in two ring windows. |
| `Geometry.WedgesExclusive` | src/obstacle_detection.cpp:123-131 | No point is in both the front and the back wedge. |
| `Geometry.TolWidens` | src/obstacle_detection.cpp:90-91 | With a non-negative base tolerance and factor, the band half-width is non-negative and does not shrink as the ring index grows. |
| `Geometry.DefaultTolPositive` | src/obstacle_detection.cpp:10-12 | Under the constructor's defaults, every ring's band half-width is at least 1 m. |
| `Training.TrainFrom` | src/obstacle_detection.cpp:217-231 | The ring loop, resumed at ring j, inserts the range into a slot exactly when the point trains that slot and the slot's ring is j or later. Every other slot is unchanged. |
| `Training.TrainPoint` | src/obstacle_detection.cpp:208-233 | A point inserts its range, at its ring's tolerance, into exactly the slots it trains. These are Front ring j when the elevation is in window j, x > 0 and -y_limit < y < y_limit, and Back ring j likewise with x < 0. All other slots are unchanged. |
| `Training.AtMostOneSlot` | src/obstacle_detection.cpp:217-231 | A point trains at most one of the 14 histograms. |
| `Training.Untrained` | src/obstacle_detection.cpp:213-230 | A point with x = 0, or outside the corridor, or in no ring window (zero range included) leaves all 14 histograms unchanged. |
| `Training.TrainAll` | src/obstacle_detection.cpp:208-233 | The cloud loop keeps 14 slots, and a slot that no point of the cloud trains keeps its histogram unchanged. |
| `Training.TrainAllRouted` | src/obstacle_detection.cpp:208-233 | Training a cloud from any histograms leaves each slot equal to its previous histogram with the ranges of the points routed to that slot inserted in cloud order. |
| `Training.Train` | src/obstacle_detection.cpp:205-233 | A frame's training gives 14 histograms. Each one is the first-fit clustering, at its ring's tolerance, of exactly the ranges routed to that slot, in cloud order. |
| `Training.TrainedCounts` | src/obstacle_detection.cpp:208-233 | Each trained histogram's counts sum to the number of points routed to its slot, and it has no more bins than that. |
| `Training.RoutedAppend` | src/obstacle_detection.cpp:208-233 | The ranges routed to a slot from a concatenated cloud are those of the first part followed by those of the second. |
| `ObstacleFilter.EmitAt` | src/obstacle_detection.cpp:122-140 | At ring j, the loop body emits the point exactly when the point is in window j and either in the front wedge with its range outside the open band around background j, or in the back wedge with its range outside the band around background 7 + j. |
| `ObstacleFilter.FilterPoint` | src/obstacle_detection.cpp:120-143 | The ring loop, visiting every ring from j on, emits the point exactly once if some ring from j on keeps it, and never otherwise. |
| `ObstacleFilter.Filter` | src/obstacle_detection.cpp:113-144 | The filtered cloud is no longer than the input. Each point satisfying the keep condition appears exactly as often as in the input. No other point appears. |
| `ObstacleFilter.FilterIsSelection` | src/obstacle_detection.cpp:113-144 | The filtered cloud is the kept points in input order, an order-preserving subsequence of the input. |
| `ObstacleFilter.KeptAppend` | src/obstacle_detection.cpp:113-144 | Selection distributes over concatenation of clouds. |
| `ObstacleFilter.KeptRepeat` | src/obstacle_detection.cpp:113-144 | Copies of one point are all kept or all dropped. |
| `ObstacleFilter.KeepFront` | src/obstacle_detection.cpp:123-130 | A point in ring j's window and the front wedge is kept iff its range is not strictly inside (bg[j] - tol(j), bg[j] + tol(j)). |
| `ObstacleFilter.KeepBack` | src/obstacle_detection.cpp:131-139 | A point in ring j's window and the back wedge is kept iff its range is not strictly inside (bg[7+j] - tol(j), bg[7+j] + tol(j)). |
| `ObstacleFilter.BandEdgesKept` | src/obstacle_detection.cpp:122-140 | In either wedge, a range exactly at bg[s] - tol(j) or bg[s] + tol(j) is kept, where s is j in the front wedge and 7 + j in the back wedge. |
| `ObstacleFilter.ZeroBackground` | src/obstacle_detection.cpp:122-140 | Against a background of 0.0 on its side (slot j in front, 7 + j behind), a point of non-negative range is dropped iff its range is below tol(j). |
| `ObstacleFilter.NoRingDropped` | src/obstacle_detection.cpp:121-142 | A point in no ring window, including one with undefined elevation, is not kept. |
| `ObstacleFilter.NoWedgeDropped` | src/obstacle_detection.cpp:123-140 | A point in neither wedge (x = 0, or on or outside the diagonals y = x and y = -x) is not kept. |
| `GridMap.Round` | src/obstacle_detection.cpp:182-184 | Rounding returns the integer nearest its argument, with halfway cases going away from zero. |
| `GridMap.GridIndex` | src/obstacle_detection.cpp:182-184 | The written index is the longitudinal cell cx = round(x / 0.10) times 120, plus the lateral cell cy = round(-y / 0.10), plus 60 + 24000. Each stored row of 120 cells is one longitudinal cell. The outer round changes nothing. |
| `GridMap.CellIndexInRange` | src/obstacle_detection.cpp:182-185 | A longitudinal cell in [-200, 199] and a lateral cell in [-60, 59] give an index in [0, 48000). Distinct cells in that range get distinct indices. |
| `GridMap.InBoxCells` | src/obstacle_detection.cpp:180-184 | A point inside the box has longitudinal cell in [-200, 200] and lateral cell in [-60, 60]. |
| `GridMap.InBoxIndex` | src/obstacle_detection.cpp:180-185 | A point inside the box never has a negative index. Its index is below 48000 unless it rounds to longitudinal cell 200, or to longitudinal cell 199 and lateral cell 60. |
| `GridMap.GridIndexEscapes` | src/obstacle_detection.cpp:180-185 | Two well-formed level points inside the box, (19.97, 0) and (19.9, -5.96), have indices 48060 and 48000, past the end of the 48000-cell grid. Neither coordinate sits near a rounding midpoint, so storing x and y as 32-bit floats gives the same cells. |
| `GridMap.RowWrap` | src/obstacle_detection.cpp:182-184 | A point that rounds to lateral cell 60 has the same grid index as any point that rounds to lateral cell -60 of the next longitudinal cell. |
| `GridMap.RowWrapWitness` | src/obstacle_detection.cpp:180-185 | The in-box points (0, -5.96) and (0.1, 5.96), almost 12 m apart laterally, both mark cell 24120. |
| `GridMap.OriginCell` | src/obstacle_detection.cpp:180-184 | A point at x = 0, y = 0 is inside the box and lands at index 24060 = width/2 + (height/2)*width. |
| `GridMap.Mark` | src/obstacle_detection.cpp:180-186 | One point sets to 100 exactly the in-grid cell it lands on, when it is inside the box, and leaves every other cell as it was. |
| `GridMap.RasterizeFrom` | src/obstacle_detection.cpp:175-187 | The point loop keeps the grid at 48000 cells. It sets a cell to 100 exactly when some point of the cloud inside the box lands on it, and leaves every other cell as it was. |
| `GridMap.Rasterize` | src/obstacle_detection.cpp:171-187 | The grid has 48000 cells. A cell is 100 iff some filtered point inside the box lands on it, and 0 otherwise. |
| `GridMap.RasterizeOrderIndependent` | src/obstacle_detection.cpp:175-187 | Two clouds holding the same points, in any order and multiplicity, give the same grid. |
| `GridMap.OutsideBoxIgnored` | src/obstacle_detection.cpp:180-181 | Adding a point outside the box does not change the grid. |
| `Pipeline.Learned` | src/obstacle_detection.cpp:235-263 | The 14 background ranges are, slot by slot, the reduction of the first-fit histogram of the ranges routed to that slot. Indices 0..6 are Front rings 0..6 and 7..13 are Back rings 0..6. |
| `Pipeline.Scan` | src/obstacle_detection.cpp:205-276 | A frame's filtered cloud holds each input point kept against the learned backgrounds, with its input multiplicity, and nothing else. Its grid has 100 exactly at the cells of filtered points inside the box. |
| `Pipeline.ZeroRangeDropped` | src/obstacle_detection.cpp:215-222 | A well-formed point of zero range has an undefined elevation, so it trains no histogram and never appears in the filtered cloud. |
| `Pipeline.FrontSlot` | src/obstacle_detection.cpp:217-223 | A point of ring j with x > 0 inside the corridor trains exactly slot j, whatever its y within the corridor. |
| `Pipeline.BackSlot` | src/obstacle_detection.cpp:217-228 | A point of ring j with x < 0 inside the corridor trains exactly slot 7 + j. |
| `Pipeline.UniformBackgroundSuppressed` | src/obstacle_detection.cpp:208-266 | Consider N copies of one front point of ring j inside the corridor, with a positive tolerance. Ring j's background becomes that point's range, the filtered cloud is empty, and every grid cell stays 0. |
| `Pipeline.TwoClustersSeparated` | src/obstacle_detection.cpp:208-266 | Consider n copies of p, then m copies of q, both front points of ring j inside the corridor, with ranges more than a tolerance apart. The background is the range of the larger cluster, or of p on a tie. Exactly the other cluster survives, whole and in order. |
| `Seqs.SelectStep` | src/obstacle_detection.cpp:113-144 | Adding the head of a sequence, when it is selected, to a multiplicity-exact selection of the tail gives a multiplicity-exact selection of the whole. |

## Findings

| source | as written | input that shows it | evidently intended | confidence | as-written member | corrected member |
|---|---|---|---|---|---|---|
| src/obstacle_detection.cpp:180-185 | The box test is strict, but `round` can still carry a point onto longitudinal cell 200, or onto longitudinal cell 199 and lateral cell 60. `grid.data[a]` is then written at an index of 48000 or more, past the end of the 48000-cell vector, and nothing checks it. | x = 19.97, y = 0 gives index 48060 (19.97 / 0.10 rounds to longitudinal cell 200). x = 19.9, y = -5.96 gives index 48000 (longitudinal cell 199, lateral cell 60). | Every write stays inside the grid. A point whose index falls outside is not rasterised. | high (not executed) | `GridMap.GridIndexEscapes` | `GridMap.Rasterize` |

A related edge of the same formula is left as written. Lateral cell 60 does
not exist, so a point that rounds to it marks lateral cell -60 of the next
longitudinal cell (`GridMap.RowWrap`). Its index is still inside the grid, but it collides with a point on the opposite edge of the box: (0, -5.96) and (0.1, 5.96) both mark cell 24120 (`GridMap.RowWrapWitness`).

## Left out

- ROS node setup, subscriptions, publishers, the callback wrapper and `shut_down` (cpp:6-26, 52-55, 189, 193-198, 269-273): transport and lifecycle plumbing with no algorithmic content.
- PointCloud2 and PCL conversions (cpp:57-75): thin wrappers over libraries that are not part of this model.
- The `sqrt` for the range and the `asin` for the elevation (cpp:118-119, 215-216): transcendental floating-point functions. Both values are per-point inputs, and a zero range is modelled as an elevation of `None`.
- IEEE arithmetic: the 32-bit float storage of point coordinates, the `float a` truncation of a bin centre before the band test (cpp:89), the inexact double `0.10`, and C `round` on doubles. The model uses exact reals and a half-away-from-zero `Round`.
- Bin counts are stored as `double` in the source and as `nat` here. Counts stay small integers, so nothing is lost.
- Grid metadata (resolution, width, height, identity origin pose; cpp:158-169), header stamping and frame-id pass-through (cpp:271-272).
- The commented-out `Clock` class (hpp:65-118), the destructors' `clear()` calls (cpp:42-50), and the raw pointer array `d_histo_ptr_` (hpp:29, cpp:31-40). The pointer array is replaced by the indexed sequence of 14 slots.
- Idempotence across frames gets no lemma. Every stage is a pure function of its inputs, so re-running a frame gives the same outputs by construction.
- Non-finite coordinates are not modelled, because reals are always finite. The only NaN the source can produce from finite input, the zero-range elevation, is modelled.

=== FILE: background.dfy ===
/**
 * Background reduction: each of the 14 histograms gives one background range,
 * the centre of its most populated bin (the two max-count loops of
 * Obstacle_Detection::scan).
 */
module Background {
  import opened Geometry
  import opened Histogram

  /** Bin k has the largest count, and every earlier bin a strictly smaller one: ties go to the earliest bin. */
  predicate FirstMax(h: Hist, k: int) {
    FirstMaxFrom(h, 0, k)
  }

  /** Some bin of h has a positive count. */
  predicate Populated(h: Hist) {
    exists k :: 0 <= k < |h| && h[k].count > 0
  }

  /** Bin k is the first bin of maximal count among bins i.. of h. */
  predicate FirstMaxFrom(h: Hist, i: nat, k: int) {
    && i <= k < |h|
    && (forall l :: i <= l < k ==> h[l].count < h[k].count)
    && (forall l :: k < l < |h| ==> h[l].count <= h[k].count)
  }

  /**
   * The max-count loop resumed at bin i, with the running best count `sum`
   * and its centre `best`: a bin replaces the best only when its count is
   * strictly greater.
   */
  function ReduceFrom(h: Hist, i: nat, sum: nat, best: real): (r: real)
    requires i <= |h|
    decreases |h| - i
    ensures (forall k :: i <= k < |h| ==> h[k].count <= sum) ==> r == best
    ensures (exists k :: i <= k < |h| && h[k].count > sum) ==>
      exists k :: FirstMaxFrom(h, i, k) && h[k].count > sum && r == h[k].center
  {
    if i == |h| then best
    else if h[i].count > sum then
      var r := ReduceFrom(h, i + 1, h[i].count, h[i].center);
      if exists k :: i + 1 <= k < |h| && h[k].count > h[i].count then
        var k :| FirstMaxFrom(h, i + 1, k) && h[k].count > h[i].count && r == h[k].center;
        assert FirstMaxFrom(h, i, k);
        r
      else
        assert FirstMaxFrom(h, i, i);
        r
    else
      var r := ReduceFrom(h, i + 1, sum, best);
      if exists k :: i <= k < |h| && h[k].count > sum then
        var k :| FirstMaxFrom(h, i + 1, k) && h[k].count > sum && r == h[k].center;
        assert FirstMaxFrom(h, i, k);
        r
      else
        r
  }

  /** The first maximum is unique. */
  lemma FirstMaxUnique(h: Hist, k1: int, k2: int)
    requires FirstMax(h, k1) && FirstMax(h, k2)
    ensures k1 == k2
  {
    var c1, c2 := h[k1].count, h[k2].count;
    assert k1 < k2 ==> c1 < c2;
    assert k2 < k1 ==> c2 < c1;
  }

  /**
   * The background range of one histogram: the centre of the first bin of
   * maximal count, or 0.0 when the histogram is empty (or has no positive count).
   */
  function Reduce(h: Hist): (r: real)
    ensures !Populated(h) ==> r == 0.0
    ensures Populated(h) ==> exists k :: FirstMax(h, k) && r == h[k].center
  {
    var r := ReduceFrom(h, 0, 0, 0.0);
    if Populated(h) then
      var k :| FirstMaxFrom(h, 0, k) && h[k].count > 0 && r == h[k].center;
      assert FirstMax(h, k);
      r
    else
      r
  }

  /**
   * The 14 background ranges, inter_d[i] read from histogram slot i: 0.0 for a
   * slot with no positive count, otherwise the centre of its first bin of
   * maximal count.
   */
  function Backgrounds(hs: seq<Hist>): (bg: seq<real>)
    requires |hs| == SlotCount
    ensures |bg| == SlotCount
    ensures forall i :: 0 <= i < SlotCount && !Populated(hs[i]) ==> bg[i] == 0.0
    ensures forall i :: 0 <= i < SlotCount && Populated(hs[i]) ==>
      exists k :: FirstMax(hs[i], k) && bg[i] == hs[i][k].center
  {
    var bg := seq(SlotCount, i requires 0 <= i < SlotCount => Reduce(hs[i]));
    assert forall i :: 0 <= i < SlotCount ==> bg[i] == Reduce(hs[i]);
    bg
  }

  /** A histogram of one bin has that bin's centre as background. */
  lemma ReduceSingle(r: real, n: nat)
    requires n >= 1
    ensures Reduce([Bin(r, n)]) == r
  {
    var h := [Bin(r, n)];
    assert h[0].count > 0;
    assert FirstMax(h, 0);
    var k :| FirstMax(h, k) && Reduce(h) == h[k].center;
    FirstMaxUnique(h, k, 0);
  }

  /**
   * Of two clusters, the background is the larger one's range, whichever was
   * inserted first; on a tie it is the earlier-inserted cluster's.
   */
  lemma ReduceTwo(r1: real, n1: nat, r2: real, n2: nat)
    requires n1 >= 1 && n2 >= 1
    ensures Reduce([Bin(r1, n1), Bin(r2, n2)]) == (if n2 > n1 then r2 else r1)
  {
    var h := [Bin(r1, n1), Bin(r2, n2)];
    assert h[0].count > 0;
    var k :| FirstMax(h, k) && Reduce(h) == h[k].center;
    if n2 > n1 {
      assert FirstMax(h, 1);
      FirstMaxUnique(h, k, 1);
    } else {
      assert FirstMax(h, 0);
      FirstMaxUnique(h, k, 0);
    }
  }
}

=== FILE: filter.dfy ===
/**
 * The filter pass (Obstacle_Detection::Filter): the whole cloud is walked
 * again, and a point is emitted when it lies in a ring window and in the front
 * or back wedge, and its range is outside the open band around that ring's
 * background range. Points in no window or in neither wedge are not emitted.
 */
module ObstacleFilter {
  import opened Geometry
  import opened Seqs

  /** Range d is not strictly inside the open band (b - t, b + t); a range exactly at b - t or b + t is outside. */
  predicate Outside(d: real, b: real, t: real) {
    !(b - t < d && d < b + t)
  }

  /** The keep test for ring j alone: front wedge against background j, back wedge against background 7 + j. */
  predicate KeepsAt(p: Point, bg: seq<real>, cfg: Config, j: nat)
    requires |bg| == SlotCount && j < RingCount
  {
    && InWindow(p.alpha, j)
    && (|| (FrontWedge(p) && Outside(p.d, bg[j], Tol(cfg, j)))
        || (BackWedge(p) && Outside(p.d, bg[RingCount + j], Tol(cfg, j))))
  }

  /** A point survives the filter: some ring keeps it. */
  predicate Keep(p: Point, bg: seq<real>, cfg: Config)
    requires |bg| == SlotCount
  {
    exists j :: 0 <= j < RingCount && KeepsAt(p, bg, cfg, j)
  }

  /** The body of the ring loop at ring j: what Filter pushes for point p there. */
  function EmitAt(p: Point, bg: seq<real>, cfg: Config, j: nat): (r: seq<Point>)
    requires |bg| == SlotCount && j < RingCount
    ensures r == (if KeepsAt(p, bg, cfg, j) then [p] else [])
  {
    if InWindow(p.alpha, j) then
      if FrontWedge(p) then
        if Outside(p.d, bg[j], Tol(cfg, j)) then [p] else []
      else if BackWedge(p) then
        if Outside(p.d, bg[RingCount + j], Tol(cfg, j)) then [p] else []
      else []
    else []
  }

  /**
   * The ring loop of Filter for one point, from ring j on. The loop's flag is
   * never set, so every ring is visited; since no elevation lies in two
   * windows, the point is still emitted at most once.
   */
  function FilterPoint(p: Point, bg: seq<real>, cfg: Config, j: nat): (r: seq<Point>)
    requires |bg| == SlotCount && j <= RingCount
    decreases RingCount - j
    ensures r == (if exists k :: j <= k < RingCount && KeepsAt(p, bg, cfg, k) then [p] else [])
  {
    if j == RingCount then []
    else
      var rest := FilterPoint(p, bg, cfg, j + 1);
      if KeepsAt(p, bg, cfg, j) then
        assert rest == [] by {
          forall k | j < k < RingCount
            ensures !KeepsAt(p, bg, cfg, k)
          {
            if InWindow(p.alpha, k) {
              WindowsDisjoint(p.alpha, j, k);
            }
          }
        }
        EmitAt(p, bg, cfg, j) + rest
      else
        EmitAt(p, bg, cfg, j) + rest
  }

  /**
   * The filter pass over a cloud: each point kept appears exactly as often as
   * in the input, each point not kept does not appear at all.
   */
  function Filter(cloud: seq<Point>, bg: seq<real>, cfg: Config): (r: seq<Point>)
    requires |bg| == SlotCount
    ensures |r| <= |cloud|
    ensures forall p :: multiset(r)[p] == (if Keep(p, bg, cfg) then multiset(cloud)[p] else 0)
  {
    if |cloud| == 0 then []
    else
      var rest := Filter(cloud[1..], bg, cfg);
      HeadCount(cloud[0], bg, cfg);
      SelectStep(cloud, FilterPoint(cloud[0], bg, cfg, 0), rest, p => Keep(p, bg, cfg));
      FilterPoint(cloud[0], bg, cfg, 0) + rest
  }

  lemma HeadCount(c: Point, bg: seq<real>, cfg: Config)
    requires |bg| == SlotCount
    ensures FilterPoint(c, bg, cfg, 0) == if Keep(c, bg, cfg) then [c] else []
  {
  }

  /** Reference selection: the points that satisfy Keep, in their input order. */
  function Kept(cloud: seq<Point>, bg: seq<real>, cfg: Config): seq<Point>
    requires |bg| == SlotCount
  {
    if |cloud| == 0 then []
    else (if Keep(cloud[0], bg, cfg) then [cloud[0]] else []) + Kept(cloud[1..], bg, cfg)
  }

  /** The filtered cloud is the order-preserving selection of the kept points. */
  lemma {:induction false} FilterIsSelection(cloud: seq<Point>, bg: seq<real>, cfg: Config)
    requires |bg| == SlotCount
    ensures Filter(cloud, bg, cfg) == Kept(cloud, bg, cfg)
    decreases |cloud|
  {
    if |cloud| > 0 {
      FilterIsSelection(cloud[1..], bg, cfg);
    }
  }

  lemma {:induction false} KeptAppend(a: seq<Point>, b: seq<Point>, bg: seq<real>, cfg: Config)
    requires |bg| == SlotCount
    ensures Kept(a + b, bg, cfg) == Kept(a, bg, cfg) + Kept(b, bg, cfg)
    decreases |a|
  {
    if |a| == 0 {
      assert a + b == b;
    } else {
      assert (a + b)[0] == a[0];
      assert (a + b)[1..] == a[1..] + b;
      KeptAppend(a[1..], b, bg, cfg);
    }
  }

  /** n copies of a point are all kept or all dropped. */
  lemma {:induction false} KeptRepeat(p: Point, n: nat, bg: seq<real>, cfg: Config)
    requires |bg| == SlotCount
    ensures Kept(Repeat(p, n), bg, cfg) == if Keep(p, bg, cfg) then Repeat(p, n) else []
  {
    if n > 0 {
      var c := Repeat(p, n);
      assert c[0] == p && c[1..] == Repeat(p, n - 1);
      KeptRepeat(p, n - 1, bg, cfg);
    }
  }

  /** Keep needs a ring: a point in no window, and in particular one of zero range, is dropped. */
  lemma NoRingDropped(p: Point, bg: seq<real>, cfg: Config)
    requires |bg| == SlotCount
    requires forall j :: 0 <= j < RingCount ==> !InWindow(p.alpha, j)
    ensures !Keep(p, bg, cfg)
  {
  }

  /** Keep needs a wedge: points with x = 0 or on the diagonals y = x, y = -x are dropped. */
  lemma NoWedgeDropped(p: Point, bg: seq<real>, cfg: Config)
    requires |bg| == SlotCount
    requires !FrontWedge(p) && !BackWedge(p)
    ensures !Keep(p, bg, cfg)
  {
  }

  /** Within its ring and front wedge, a point is kept exactly when its range is outside the band of background j. */
  lemma KeepFront(p: Point, bg: seq<real>, cfg: Config, j: nat)
    requires |bg| == SlotCount && j < RingCount
    requires InWindow(p.alpha, j) && FrontWedge(p)
    ensures Keep(p, bg, cfg) <==> Outside(p.d, bg[j], Tol(cfg, j))
  {
    if Outside(p.d, bg[j], Tol(cfg, j)) {
      assert KeepsAt(p, bg, cfg, j);
    }
    if Keep(p, bg, cfg) {
      var k :| 0 <= k < RingCount && KeepsAt(p, bg, cfg, k);
      WindowsDisjoint(p.alpha, j, k);
      WedgesExclusive(p);
    }
  }

  /** Within its ring and back wedge, a point is kept exactly when its range is outside the band of background 7 + j. */
  lemma KeepBack(p: Point, bg: seq<real>, cfg: Config, j: nat)
    requires |bg| == SlotCount && j < RingCount
    requires InWindow(p.alpha, j) && BackWedge(p)
    ensures Keep(p, bg, cfg) <==> Outside(p.d, bg[RingCount + j], Tol(cfg, j))
  {
    if Outside(p.d, bg[RingCount + j], Tol(cfg, j)) {
      assert KeepsAt(p, bg, cfg, j);
    }
    if Keep(p, bg, cfg) {
      var k :| 0 <= k < RingCount && KeepsAt(p, bg, cfg, k);
      WindowsDisjoint(p.alpha, j, k);
      WedgesExclusive(p);
    }
  }

  /** Slot s is the background a point of ring j is tested against: j in the front wedge, 7 + j in the back wedge. */
  predicate SideSlot(p: Point, j: nat, s: nat) {
    (FrontWedge(p) && s == j) || (BackWedge(p) && s == RingCount + j)
  }

  /** A range exactly on either edge of its side's band is kept. */
  lemma BandEdgesKept(p: Point, bg: seq<real>, cfg: Config, j: nat, s: nat)
    requires |bg| == SlotCount && j < RingCount
    requires InWindow(p.alpha, j) && SideSlot(p, j, s)
    requires p.d == bg[s] - Tol(cfg, j) || p.d == bg[s] + Tol(cfg, j)
    ensures Keep(p, bg, cfg)
  {
    assert KeepsAt(p, bg, cfg, j);
  }

  /** Against a background of 0.0 (an empty histogram) on its side, a non-negative range is dropped exactly when it is below the tolerance. */
  lemma ZeroBackground(p: Point, bg: seq<real>, cfg: Config, j: nat, s: nat)
    requires |bg| == SlotCount && j < RingCount
    requires InWindow(p.alpha, j) && SideSlot(p, j, s)
    requires bg[s] == 0.0 && p.d >= 0.0
    ensures !Keep(p, bg, cfg) <==> p.d < Tol(cfg, j)
  {
    if FrontWedge(p) {
      KeepFront(p, bg, cfg, j);
    } else {
      KeepBack(p, bg, cfg, j);
    }
  }
}

=== FILE: geometry.dfy ===
/**
 * Points, the node's three tunables, and the geometry that both passes of the
 * per-frame segmentation share: the seven elevation rings and the front/back
 * wedges (src/obstacle_detection.cpp, Obstacle_Detection::scan and ::Filter).
 */
module Geometry {

  datatype Option<+T> = None | Some(value: T)

  /**
   * One lidar return. `d` is the range sqrt(x*x + y*y + z*z) and `alpha` the
   * elevation asin(z / d) in degrees, both computed by the caller. `alpha` is
   * None where the source's elevation is NaN, which is the case d = 0.
   */
  datatype Point = Point(x: real, y: real, z: real, d: real, alpha: Option<real>)

  /**
   * A point as the source derives it: the range is non-negative, and the
   * elevation is undefined (asin(0/0)) exactly when the range is zero.
   */
  predicate WellFormed(p: Point) {
    p.d >= 0.0 && (p.alpha.None? <==> p.d == 0.0)
  }

  /**
   * The three tunables of Obstacle_Detection: the lateral training gate
   * y_limit_m_, the base tolerance tolerance_m_ and its per-ring growth
   * tolerance_factor_.
   */
  datatype Config = Config(yLimit: real, toleranceM: real, toleranceFactor: real)

  /** The constructor's defaults. */
  const DefaultConfig: Config := Config(1.5, 1.0, 0.12)

  /** Number of elevation rings, and of histograms (rings times {Front, Back}). */
  const RingCount: nat := 7
  const SlotCount: nat := 14

  /** Half-width of ring j's distance band: tolerance_m * (1 + tolerance_factor * j). */
  function Tol(cfg: Config, j: nat): real {
    cfg.toleranceM * (1.0 + cfg.toleranceFactor * (j as real))
  }

  /** Ring j's open elevation window (-15.1 + 2j, -14.9 + 2j); a NaN elevation is in no window. */
  predicate InWindow(alpha: Option<real>, j: nat) {
    alpha.Some? && -15.1 + 2.0 * (j as real) < alpha.value < -14.9 + 2.0 * (j as real)
  }

  /** The front wedge of the filter pass: x > 0 and -x < y < x. */
  predicate FrontWedge(p: Point) {
    p.x > 0.0 && p.y < p.x && p.y > -p.x
  }

  /** The back wedge of the filter pass: x < 0 and x < y < -x. */
  predicate BackWedge(p: Point) {
    p.x < 0.0 && p.y < -p.x && p.y > p.x
  }

  /** The lateral gate of the training pass: -y_limit < y < y_limit. */
  predicate InCorridor(p: Point, cfg: Config) {
    -cfg.yLimit < p.y < cfg.yLimit
  }

  /** No elevation lies in two ring windows, so "the first matching ring" and "a matching ring" agree. */
  lemma WindowsDisjoint(alpha: Option<real>, j: nat, k: nat)
    requires InWindow(alpha, j) && InWindow(alpha, k)
    ensures j == k
  {
  }

  /** The two wedges never overlap, so at most one branch of the filter fires. */
  lemma WedgesExclusive(p: Point)
    ensures !(FrontWedge(p) && BackWedge(p))
  {
  }

  /** A point of undefined elevation (zero range) lies in no ring. */
  lemma NoElevationNoRing(p: Point, j: nat)
    requires p.alpha.None?
    ensures !InWindow(p.alpha, j)
  {
  }

  /** With a non-negative base tolerance and growth factor, the band widens with the ring index. */
  lemma {:induction false} TolWidens(cfg: Config, j: nat, k: nat)
    requires cfg.toleranceM >= 0.0 && cfg.toleranceFactor >= 0.0
    requires j <= k
    ensures 0.0 <= Tol(cfg, j) <= Tol(cfg, k)
  {
    var a := 1.0 + cfg.toleranceFactor * (j as real);
    var b := 1.0 + cfg.toleranceFactor * (k as real);
    assert 1.0 <= a <= b by {
      assert cfg.toleranceFactor * ((k - j) as real) >= 0.0;
    }
    assert cfg.toleranceM * a <= cfg.toleranceM * b by {
      assert cfg.toleranceM * b - cfg.toleranceM * a == cfg.toleranceM * (b - a);
    }
  }

  /** Under the defaults every band is positive: 1 + 0.12 j metres. */
  lemma DefaultTolPositive(j: nat)
    ensures Tol(DefaultConfig, j) >= 1.0
  {
  }
}

=== FILE: grid.dfy ===
/**
 * The occupancy grid of Obstacle_Detection::GridMap: 120 x 400 cells of
 * 0.10 m, all 0, with 100 written at the cell of every filtered point inside
 * the box -20 < x < 20, -6 < -y < 6.
 */
module GridMap {
  import opened Geometry
  import opened Seqs

  const Width: int := 120
  const Height: int := 400
  const CellCount: int := 48000
  const Resolution: real := 0.1
  const Free: int := 0
  const Occupied: int := 100

  /** C's round: to the nearest integer, halfway cases away from zero. */
  function Round(v: real): (r: int)
    ensures v >= 0.0 ==> (r as real) - 0.5 <= v < (r as real) + 0.5
    ensures v < 0.0 ==> (r as real) - 0.5 < v <= (r as real) + 0.5
  {
    if v >= 0.0 then (v + 0.5).Floor else -((-v + 0.5).Floor)
  }

  /** The rasterised box: back/front bounds on x, right/left bounds on the negated y. */
  predicate InBox(p: Point) {
    p.x > -20.0 && p.x < 20.0 && -p.y > -6.0 && -p.y < 6.0
  }

  /** Longitudinal and lateral cell coordinates, round(x / res) and round(-y / res). */
  function CellX(p: Point): int { Round(p.x / Resolution) }
  function CellY(p: Point): int { Round(-p.y / Resolution) }

  /**
   * The index GridMap writes, as written:
   * round(round(x/res) * width + round(-y/res) + width/2 + (height/2) * width).
   * The outer round is applied to a whole number and changes nothing.
   */
  function GridIndex(p: Point): (idx: int)
    ensures idx == CellX(p) * Width + CellY(p) + Width / 2 + (Height / 2) * Width
  {
    var w, h := Width as real, Height as real;
    Round((CellX(p) as real) * w + (CellY(p) as real) + w / 2.0 + (h / 2.0) * w)
  }

  /** Every cell whose coordinates lie in [-200, 199] x [-60, 59] has an index inside the grid, and distinct cells distinct indices. */
  lemma CellIndexInRange(cx: int, cy: int, cx': int, cy': int)
    requires -200 <= cx <= 199 && -60 <= cy <= 59
    requires -200 <= cx' <= 199 && -60 <= cy' <= 59
    ensures 0 <= cx * Width + cy + 60 + 24000 < CellCount
    ensures cx * Width + cy == cx' * Width + cy' ==> cx == cx' && cy == cy'
  {
  }

  /** A point inside the box has cell coordinates in [-200, 200] x [-60, 60]: one more than the grid holds on the upper edges. */
  lemma InBoxCells(p: Point)
    requires InBox(p)
    ensures -200 <= CellX(p) <= 200 && -60 <= CellY(p) <= 60
  {
  }

  /**
   * For a point inside the box the index is never negative, and it lies inside
   * the grid unless the point rounds to longitudinal cell 200, or to longitudinal
   * cell 199 and lateral cell 60.
   */
  lemma InBoxIndex(p: Point)
    requires InBox(p)
    ensures 0 <= GridIndex(p)
    ensures GridIndex(p) < CellCount <==> !(CellX(p) == 200 || (CellX(p) == 199 && CellY(p) == 60))
  {
    InBoxCells(p);
  }

  /**
   * The box test does not keep the index in the grid: (19.97, 0) lands at
   * 48060 and (19.9, -5.96) at 48000. Both coordinates stay clear of a
   * rounding midpoint, so single-precision storage of x and y does not move
   * them to another cell. Both points are level (elevation 0, outside every
   * ring window); q's range is sqrt(19.9^2 + 5.96^2) to two places, and the
   * grid does not read the range.
   */
  lemma GridIndexEscapes()
    ensures var p := Point(19.97, 0.0, 0.0, 19.97, Some(0.0));
            WellFormed(p) && InBox(p) && GridIndex(p) == 48060 && GridIndex(p) >= CellCount
    ensures var q := Point(19.9, -5.96, 0.0, 20.77, Some(0.0));
            WellFormed(q) && InBox(q) && GridIndex(q) == 48000 && GridIndex(q) >= CellCount
  {
    var p := Point(19.97, 0.0, 0.0, 19.97, Some(0.0));
    assert p.x / Resolution == 199.7;
    assert CellX(p) == 200;
    assert CellY(p) == 0;
    var q := Point(19.9, -5.96, 0.0, 20.77, Some(0.0));
    assert q.x / Resolution == 199.0;
    assert -q.y / Resolution == 59.6;
    assert CellX(q) == 199;
    assert CellY(q) == 60;
  }

  /**
   * Lateral cell 60 does not exist: a point that rounds to it is written at the
   * index of lateral cell -60 of the next longitudinal cell (the next stored row).
   */
  lemma RowWrap(p: Point, q: Point)
    requires CellY(p) == 60 && CellY(q) == -60 && CellX(q) == CellX(p) + 1
    ensures GridIndex(p) == GridIndex(q)
  {
  }

  /** Two points inside the box, 11.92 m apart laterally, mark the same cell 24120. */
  lemma RowWrapWitness()
    ensures var p := Point(0.0, -5.96, 0.0, 5.96, Some(0.0));
            var q := Point(0.1, 5.96, 0.0, 5.96, Some(0.0));
            InBox(p) && InBox(q) && p != q && GridIndex(p) == GridIndex(q) == 24120
  {
    var p := Point(0.0, -5.96, 0.0, 5.96, Some(0.0));
    var q := Point(0.1, 5.96, 0.0, 5.96, Some(0.0));
    assert -p.y / Resolution == 59.6;
    assert q.x / Resolution == 1.0;
    assert -q.y / Resolution == -59.6;
    assert CellX(p) == 0 && CellY(p) == 60;
    assert CellX(q) == 1 && CellY(q) == -60;
    RowWrap(p, q);
  }

  /** The sensor origin lands at width/2 + (height/2)*width = 24060, the centre cell. */
  lemma OriginCell(p: Point)
    requires p.x == 0.0 && p.y == 0.0
    ensures InBox(p) && GridIndex(p) == 24060 == Width / 2 + (Height / 2) * Width
  {
    assert CellX(p) == 0 && CellY(p) == 0;
  }

  /** Point p marks cell k: it is inside the box and its index is k. */
  predicate Lands(p: Point, k: int) {
    InBox(p) && GridIndex(p) == k
  }

  /** Some point of the cloud marks cell k. */
  predicate Hit(cloud: seq<Point>, k: int) {
    exists p :: p in cloud && Lands(p, k)
  }

  /** The write of one point, guarded: a point whose index falls outside the grid writes nothing. */
  function Mark(g: seq<int>, p: Point): (r: seq<int>)
    requires |g| == CellCount
    ensures |r| == CellCount
    ensures forall k :: 0 <= k < CellCount ==> r[k] == (if Lands(p, k) then Occupied else g[k])
  {
    if InBox(p) && 0 <= GridIndex(p) < |g| then g[GridIndex(p) := Occupied] else g
  }

  /** The point loop of GridMap, from grid g on. */
  function RasterizeFrom(g: seq<int>, cloud: seq<Point>): (r: seq<int>)
    requires |g| == CellCount
    ensures |r| == CellCount
    ensures forall k :: 0 <= k < CellCount ==> r[k] == (if Hit(cloud, k) then Occupied else g[k])
    decreases |cloud|
  {
    if |cloud| == 0 then g
    else
      var r := RasterizeFrom(Mark(g, cloud[0]), cloud[1..]);
      HitStep(cloud);
      r
  }

  lemma HitStep(cloud: seq<Point>)
    requires |cloud| > 0
    ensures forall k :: Hit(cloud, k) <==> Lands(cloud[0], k) || Hit(cloud[1..], k)
  {
    assert cloud == [cloud[0]] + cloud[1..];
    forall k | Hit(cloud, k)
      ensures Lands(cloud[0], k) || Hit(cloud[1..], k)
    {
      var p :| p in cloud && Lands(p, k);
      if p != cloud[0] {
        assert p in cloud[1..];
      }
    }
  }

  /**
   * The grid of a filtered cloud: 48000 cells, each 100 exactly when some
   * point of the cloud inside the box has that index, 0 otherwise.
   */
  function Rasterize(cloud: seq<Point>): (g: seq<int>)
    ensures |g| == CellCount
    ensures forall k :: 0 <= k < CellCount ==> g[k] == (if Hit(cloud, k) then Occupied else Free)
  {
    RasterizeFrom(Repeat(Free, CellCount), cloud)
  }

  /** The grid depends only on which points the cloud holds, not on their order or repetition. */
  lemma RasterizeOrderIndependent(a: seq<Point>, b: seq<Point>)
    requires forall p :: p in a <==> p in b
    ensures Rasterize(a) == Rasterize(b)
  {
    var ga, gb := Rasterize(a), Rasterize(b);
    forall k | 0 <= k < CellCount
      ensures ga[k] == gb[k]
    {
      assert Hit(a, k) <==> Hit(b, k);
    }
  }

  /** Points outside the box change nothing. */
  lemma OutsideBoxIgnored(cloud: seq<Point>, p: Point)
    requires !InBox(p)
    ensures Rasterize(cloud + [p]) == Rasterize(cloud)
  {
    var g1, g0 := Rasterize(cloud + [p]), Rasterize(cloud);
    forall k | 0 <= k < CellCount
      ensures g1[k] == g0[k]
    {
      if Hit(cloud + [p], k) {
        var q :| q in cloud + [p] && Lands(q, k);
        assert q in cloud;
      }
      if Hit(cloud, k) {
        var q :| q in cloud && Lands(q, k);
        assert q in cloud + [p];
      }
    }
  }
}

=== FILE: histogram.dfy ===
/**
 * The adaptive distance histogram of one ring and side: first-fit,
 * running-mean clustering of ranges (Obstacle_Detection::histogram_allocation).
 */
module Histogram {
  import opened Seqs

  /** One distance interval: the running mean of its samples and how many were merged into it. */
  datatype Bin = Bin(center: real, count: nat)

  type Hist = seq<Bin>

  /** The closed band [c - t, c + t] that decides whether bin b absorbs sample d. */
  predicate InBand(b: Bin, d: real, t: real) {
    b.center - t <= d <= b.center + t
  }

  /** The running-mean update of a bin absorbing d: one more sample, centre moved towards d. */
  function Merge(b: Bin, d: real): (r: Bin)
    ensures r.count == b.count + 1
    ensures b.center <= d ==> b.center <= r.center <= d
    ensures d <= b.center ==> d <= r.center <= b.center
  {
    var n := b.count as real;
    var c := (n * b.center + d) / (n + 1.0);
    assert c * (n + 1.0) == n * b.center + d;
    Bin(c, b.count + 1)
  }

  /** Bin i is the lowest-index bin whose band contains d. */
  predicate FirstFit(h: Hist, d: real, t: real, i: int) {
    && 0 <= i < |h|
    && InBand(h[i], d, t)
    && (forall k :: 0 <= k < i ==> !InBand(h[k], d, t))
  }

  /** No band of h contains d. */
  predicate NoFit(h: Hist, d: real, t: real) {
    forall k :: 0 <= k < |h| ==> !InBand(h[k], d, t)
  }

  /** The bin loop of histogram_allocation, resumed at bin i. */
  function InsertFrom(h: Hist, d: real, t: real, i: nat): (r: Hist)
    requires i <= |h|
    requires forall k :: 0 <= k < i ==> !InBand(h[k], d, t)
    decreases |h| - i
    ensures NoFit(h, d, t) ==> r == h + [Bin(d, 1)]
    ensures !NoFit(h, d, t) ==> exists f :: FirstFit(h, d, t, f) && r == h[f := Merge(h[f], d)]
  {
    if i == |h| then h + [Bin(d, 1)]
    else if InBand(h[i], d, t) then
      assert FirstFit(h, d, t, i);
      h[i := Merge(h[i], d)]
    else InsertFrom(h, d, t, i + 1)
  }

  /**
   * histogram_allocation for tolerance t: an empty histogram becomes [(d, 1)];
   * otherwise d merges into the first bin whose closed band contains it, every
   * other bin unchanged, or (d, 1) is appended when no band does.
   */
  function Insert(h: Hist, d: real, t: real): (r: Hist)
    ensures |h| == 0 ==> r == [Bin(d, 1)]
    ensures NoFit(h, d, t) <==> r == h + [Bin(d, 1)]
    ensures !NoFit(h, d, t) ==> exists f :: FirstFit(h, d, t, f) && r == h[f := Merge(h[f], d)]
  {
    if |h| == 0 then [Bin(d, 1)] else InsertFrom(h, d, t, 0)
  }

  /** Successive insertion of the samples ds, first to last. */
  function InsertAll(h: Hist, ds: seq<real>, t: real): Hist
    decreases |ds|
  {
    if |ds| == 0 then h else InsertAll(Insert(h, ds[0], t), ds[1..], t)
  }

  /** Sum of the bin counts. */
  function TotalCount(h: Hist): nat {
    if |h| == 0 then 0 else TotalCount(h[..|h| - 1]) + h[|h| - 1].count
  }

  lemma {:induction false} TotalCountAppend(h: Hist, b: Bin)
    ensures TotalCount(h + [b]) == TotalCount(h) + b.count
  {
    assert (h + [b])[..|h|] == h;
  }

  lemma {:induction false} TotalCountUpdate(h: Hist, i: nat, b: Bin)
    requires i < |h|
    ensures TotalCount(h[i := b]) == TotalCount(h) - h[i].count + b.count
  {
    var n := |h| - 1;
    if i < n {
      assert h[i := b][..n] == h[..n][i := b];
      TotalCountUpdate(h[..n], i, b);
    } else {
      assert h[i := b][..n] == h[..n];
    }
  }

  /** Each insertion adds exactly one to the total count, and at most one bin. */
  lemma InsertCounts(h: Hist, d: real, t: real)
    ensures TotalCount(Insert(h, d, t)) == TotalCount(h) + 1
    ensures |h| <= |Insert(h, d, t)| <= |h| + 1
  {
    if NoFit(h, d, t) {
      TotalCountAppend(h, Bin(d, 1));
    } else {
      var r := Insert(h, d, t);
      var f :| FirstFit(h, d, t, f) && r == h[f := Merge(h[f], d)];
      TotalCountUpdate(h, f, Merge(h[f], d));
    }
  }

  /** The counts of a histogram sum to the number of insertions; each insertion adds at most one bin. */
  lemma {:induction false} InsertAllCounts(h: Hist, ds: seq<real>, t: real)
    ensures TotalCount(InsertAll(h, ds, t)) == TotalCount(h) + |ds|
    ensures |h| <= |InsertAll(h, ds, t)| <= |h| + |ds|
    decreases |ds|
  {
    if |ds| > 0 {
      InsertCounts(h, ds[0], t);
      InsertAllCounts(Insert(h, ds[0], t), ds[1..], t);
    }
  }

  /** Inserting a concatenation is inserting its two halves in turn. */
  lemma {:induction false} InsertAllAppend(h: Hist, a: seq<real>, b: seq<real>, t: real)
    ensures InsertAll(h, a + b, t) == InsertAll(InsertAll(h, a, t), b, t)
    decreases |a|
  {
    if |a| > 0 {
      assert (a + b)[0] == a[0];
      assert (a + b)[1..] == a[1..] + b;
      assert InsertAll(h, a + b, t) == InsertAll(Insert(h, a[0], t), a[1..] + b, t);
      assert InsertAll(h, a, t) == InsertAll(Insert(h, a[0], t), a[1..], t);
      InsertAllAppend(Insert(h, a[0], t), a[1..], b, t);
    } else {
      assert a + b == b;
    }
  }

  /** Merging a sample equal to the centre keeps the centre. */
  lemma MergeSame(r: real, n: nat)
    ensures Merge(Bin(r, n), r) == Bin(r, n + 1)
  {
    var m := (n + 1) as real;
    assert (n as real) * r + r == m * r;
    assert m * r / m == r;
  }

  /** Further copies of a bin's centre pile onto that last bin when no earlier band catches them. */
  lemma {:induction false} RepeatOntoLast(h: Hist, r: real, n: nat, k: nat, t: real)
    requires t >= 0.0
    requires NoFit(h, r, t)
    ensures InsertAll(h + [Bin(r, n)], Repeat(r, k), t) == h + [Bin(r, n + k)]
    decreases k
  {
    if k > 0 {
      var g := h + [Bin(r, n)];
      assert FirstFit(g, r, t, |h|);
      assert !NoFit(g, r, t);
      var ins := Insert(g, r, t);
      var f :| FirstFit(g, r, t, f) && ins == g[f := Merge(g[f], r)];
      assert f == |h|;
      MergeSame(r, n);
      assert Insert(g, r, t) == h + [Bin(r, n + 1)];
      assert Repeat(r, k)[1..] == Repeat(r, k - 1);
      RepeatOntoLast(h, r, n + 1, k - 1, t);
    }
  }

  /** N identical samples give the single bin (r, N). */
  lemma IdenticalSamples(r: real, n: nat, t: real)
    requires n >= 1 && t >= 0.0
    ensures InsertAll([], Repeat(r, n), t) == [Bin(r, n)]
  {
    assert Repeat(r, n)[1..] == Repeat(r, n - 1);
    assert Insert([], r, t) == [] + [Bin(r, 1)];
    RepeatOntoLast([], r, 1, n - 1, t);
  }

  /**
   * Two clusters of identical samples whose ranges lie more than t apart give
   * two bins, in insertion order, with their sizes as counts.
   */
  lemma TwoClusters(r1: real, n1: nat, r2: real, n2: nat, t: real)
    requires n1 >= 1 && n2 >= 1 && t >= 0.0
    requires r1 - r2 > t || r2 - r1 > t
    ensures InsertAll([], Repeat(r1, n1) + Repeat(r2, n2), t) == [Bin(r1, n1), Bin(r2, n2)]
  {
    InsertAllAppend([], Repeat(r1, n1), Repeat(r2, n2), t);
    IdenticalSamples(r1, n1, t);
    var h := [Bin(r1, n1)];
    assert NoFit(h, r2, t);
    assert Insert(h, r2, t) == h + [Bin(r2, 1)];
    assert Repeat(r2, n2)[1..] == Repeat(r2, n2 - 1);
    RepeatOntoLast(h, r2, 1, n2 - 1, t);
  }

  // ----- Each centre is the mean of the samples merged into it -----

  function Sum(s: seq<real>): real {
    if |s| == 0 then 0.0 else Sum(s[..|s| - 1]) + s[|s| - 1]
  }

  function Mean(s: seq<real>): real
    requires |s| > 0
  {
    Sum(s) / (|s| as real)
  }

  /** The samples m[i] account for bin i: as many as its count, with its centre as their mean. */
  ghost predicate Explains(h: Hist, m: seq<seq<real>>) {
    && |h| == |m|
    && forall i :: 0 <= i < |h| ==> |m[i]| > 0 && h[i].count == |m[i]| && h[i].center == Mean(m[i])
  }

  /** All samples held by m, as a bag. */
  ghost function Bag(m: seq<seq<real>>): multiset<real> {
    if |m| == 0 then multiset{} else Bag(m[..|m| - 1]) + multiset(m[|m| - 1])
  }

  /** Where the bin loop puts sample d, recorded on the samples-per-bin side. */
  ghost function RouteFrom(h: Hist, m: seq<seq<real>>, d: real, t: real, i: nat): seq<seq<real>>
    requires i <= |h| == |m|
    decreases |h| - i
  {
    if i == |h| then m + [[d]]
    else if InBand(h[i], d, t) then m[i := m[i] + [d]]
    else RouteFrom(h, m, d, t, i + 1)
  }

  ghost function Route(h: Hist, m: seq<seq<real>>, d: real, t: real): seq<seq<real>>
    requires |h| == |m|
  {
    if |h| == 0 then [[d]] else RouteFrom(h, m, d, t, 0)
  }

  ghost function RouteAll(h: Hist, m: seq<seq<real>>, ds: seq<real>, t: real): seq<seq<real>>
    requires |h| == |m|
    decreases |ds|
  {
    if |ds| == 0 then m
    else
      RouteLength(h, m, ds[0], t);
      RouteAll(Insert(h, ds[0], t), Route(h, m, ds[0], t), ds[1..], t)
  }

  lemma {:induction false} RouteFromLength(h: Hist, m: seq<seq<real>>, d: real, t: real, i: nat)
    requires i <= |h| == |m|
    requires forall k :: 0 <= k < i ==> !InBand(h[k], d, t)
    ensures |InsertFrom(h, d, t, i)| == |RouteFrom(h, m, d, t, i)|
    decreases |h| - i
  {
    if i < |h| && !InBand(h[i], d, t) {
      RouteFromLength(h, m, d, t, i + 1);
    }
  }

  /** Insertion and routing add a bin or a group in step. */
  lemma RouteLength(h: Hist, m: seq<seq<real>>, d: real, t: real)
    requires |h| == |m|
    ensures |Insert(h, d, t)| == |Route(h, m, d, t)|
  {
    if |h| > 0 {
      RouteFromLength(h, m, d, t, 0);
    }
  }

  lemma BagAppend(m: seq<seq<real>>, s: seq<real>)
    ensures Bag(m + [s]) == Bag(m) + multiset(s)
  {
    assert (m + [s])[..|m|] == m;
  }

  lemma {:induction false} BagUpdate(m: seq<seq<real>>, i: nat, s: seq<real>)
    requires i < |m|
    ensures Bag(m[i := s]) == Bag(m) - multiset(m[i]) + multiset(s)
  {
    var n := |m| - 1;
    if i < n {
      assert m[i := s][..n] == m[..n][i := s];
      BagUpdate(m[..n], i, s);
      assert multiset(m[..n][i]) <= Bag(m[..n]) by { BagHolds(m[..n], i); }
    } else {
      assert m[i := s][..n] == m[..n];
    }
  }

  lemma {:induction false} BagHolds(m: seq<seq<real>>, i: nat)
    requires i < |m|
    ensures multiset(m[i]) <= Bag(m)
  {
    if i < |m| - 1 {
      BagHolds(m[..|m| - 1], i);
    }
  }

  lemma SumAppend(s: seq<real>, d: real)
    ensures Sum(s + [d]) == Sum(s) + d
  {
    assert (s + [d])[..|s|] == s;
  }

  lemma MeanSingle(d: real)
    ensures Mean([d]) == d
  {
    assert [d][..0] == [];
    assert Sum([d]) == Sum([]) + d;
    assert Sum([d]) / 1.0 == d;
  }

  /** The running-mean update is the mean of the samples plus the new one. */
  lemma MergeMean(b: Bin, s: seq<real>, d: real)
    requires |s| > 0 && b.count == |s| && b.center == Mean(s)
    ensures Merge(b, d) == Bin(Mean(s + [d]), |s + [d]|)
  {
    SumAppend(s, d);
    var n := |s| as real;
    assert n * (Sum(s) / n) == Sum(s);
    assert (n * b.center + d) / (n + 1.0) == (Sum(s) + d) / (n + 1.0);
  }

  lemma RouteAppendExplains(h: Hist, m: seq<seq<real>>, d: real)
    requires Explains(h, m)
    ensures Explains(h + [Bin(d, 1)], m + [[d]])
  {
    MeanSingle(d);
  }

  lemma RouteMergeExplains(h: Hist, m: seq<seq<real>>, d: real, i: nat)
    requires Explains(h, m) && i < |h|
    ensures Explains(h[i := Merge(h[i], d)], m[i := m[i] + [d]])
  {
    var h' := h[i := Merge(h[i], d)];
    var m' := m[i := m[i] + [d]];
    MergeMean(h[i], m[i], d);
    forall j | 0 <= j < |h'|
      ensures |m'[j]| > 0 && h'[j].count == |m'[j]| && h'[j].center == Mean(m'[j])
    {
      if j != i {
        assert h'[j] == h[j] && m'[j] == m[j];
      }
    }
  }

  lemma {:induction false} RouteFromExplains(h: Hist, m: seq<seq<real>>, d: real, t: real, i: nat)
    requires Explains(h, m) && i <= |h|
    requires forall k :: 0 <= k < i ==> !InBand(h[k], d, t)
    ensures Explains(InsertFrom(h, d, t, i), RouteFrom(h, m, d, t, i))
    decreases |h| - i
  {
    if i == |h| {
      RouteAppendExplains(h, m, d);
    } else if InBand(h[i], d, t) {
      RouteMergeExplains(h, m, d, i);
    } else {
      RouteFromExplains(h, m, d, t, i + 1);
    }
  }

  lemma {:induction false} RouteFromBag(h: Hist, m: seq<seq<real>>, d: real, t: real, i: nat)
    requires i <= |h| == |m|
    ensures Bag(RouteFrom(h, m, d, t, i)) == Bag(m) + multiset{d}
    decreases |h| - i
  {
    if i == |h| {
      BagAppend(m, [d]);
    } else if InBand(h[i], d, t) {
      BagUpdate(m, i, m[i] + [d]);
      BagHolds(m, i);
      assert multiset(m[i] + [d]) == multiset(m[i]) + multiset{d};
    } else {
      RouteFromBag(h, m, d, t, i + 1);
    }
  }

  /** Routing adds d to exactly one group. */
  lemma RouteBag(h: Hist, m: seq<seq<real>>, d: real, t: real)
    requires |h| == |m|
    ensures Bag(Route(h, m, d, t)) == Bag(m) + multiset{d}
  {
    if |h| == 0 {
      BagAppend(m, [d]);
      assert m + [[d]] == [[d]];
    } else {
      RouteFromBag(h, m, d, t, 0);
    }
  }

  /** One insertion keeps every centre the mean of its samples. */
  lemma RouteExplains(h: Hist, m: seq<seq<real>>, d: real, t: real)
    requires Explains(h, m)
    ensures Explains(Insert(h, d, t), Route(h, m, d, t))
  {
    if |h| == 0 {
      RouteAppendExplains(h, m, d);
      assert m + [[d]] == [[d]];
    } else {
      RouteFromExplains(h, m, d, t, 0);
    }
  }

  lemma {:induction false} RouteAllExplains(h: Hist, m: seq<seq<real>>, ds: seq<real>, t: real)
    requires Explains(h, m)
    ensures Explains(InsertAll(h, ds, t), RouteAll(h, m, ds, t))
    decreases |ds|
  {
    if |ds| > 0 {
      var d := ds[0];
      RouteExplains(h, m, d, t);
      RouteAllExplains(Insert(h, d, t), Route(h, m, d, t), ds[1..], t);
    }
  }

  lemma {:induction false} RouteAllBag(h: Hist, m: seq<seq<real>>, ds: seq<real>, t: real)
    requires |h| == |m|
    ensures Bag(RouteAll(h, m, ds, t)) == Bag(m) + multiset(ds)
    decreases |ds|
  {
    if |ds| > 0 {
      var d, rest := ds[0], ds[1..];
      RouteLength(h, m, d, t);
      RouteBag(h, m, d, t);
      var h1, m1 := Insert(h, d, t), Route(h, m, d, t);
      RouteAllBag(h1, m1, rest, t);
      assert RouteAll(h, m, ds, t) == RouteAll(h1, m1, rest, t);
      BagChain(Bag(m), Bag(m1), Bag(RouteAll(h1, m1, rest, t)), ds);
    }
  }

  lemma BagChain(b0: multiset<real>, b1: multiset<real>, b2: multiset<real>, ds: seq<real>)
    requires |ds| > 0
    requires b1 == b0 + multiset{ds[0]} && b2 == b1 + multiset(ds[1..])
    ensures b2 == b0 + multiset(ds)
  {
    assert ds == [ds[0]] + ds[1..];
  }

  /**
   * After inserting ds into an empty histogram, the samples split into one
   * group per bin, every sample in exactly one group, and each bin's centre is
   * the mean of its group and its count the group's size.
   */
  lemma CentresAreMeans(ds: seq<real>, t: real)
    ensures exists m :: Explains(InsertAll([], ds, t), m) && Bag(m) == multiset(ds)
  {
    assert Explains([], []);
    RouteAllExplains([], [], ds, t);
    RouteAllBag([], [], ds, t);
    var m := RouteAll([], [], ds, t);
    assert Explains(InsertAll([], ds, t), m) && Bag(m) == multiset(ds);
  }
}

=== FILE: pipeline.dfy ===
/**
 * One frame of Obstacle_Detection::scan, without the transport: train the 14
 * histograms on the cloud, reduce each to a background range, filter the same
 * cloud against them, and rasterise what survives.
 */
module Pipeline {
  import opened Seqs
  import opened Geometry
  import opened Histogram
  import opened Background
  import opened Training
  import opened ObstacleFilter
  import opened GridMap

  /** The two outputs of a frame: the filtered cloud and the occupancy grid. */
  datatype Frame = Frame(filtered: seq<Point>, grid: seq<int>)

  /** The background ranges a cloud teaches. */
  function Learned(cloud: seq<Point>, cfg: Config): (bg: seq<real>)
    ensures |bg| == SlotCount
    ensures forall k :: 0 <= k < SlotCount ==>
      bg[k] == Reduce(InsertAll([], Routed(cloud, cfg, k), Tol(cfg, SlotRing(k))))
  {
    Backgrounds(Train(cloud, cfg))
  }

  /**
   * One frame: the filtered cloud holds each input point kept against the
   * learned backgrounds, as often as the input does, and no other point; the
   * grid has 100 exactly at the cells of filtered points inside the box.
   */
  function Scan(cloud: seq<Point>, cfg: Config): (out: Frame)
    ensures |out.filtered| <= |cloud|
    ensures forall p ::
      multiset(out.filtered)[p] == (if Keep(p, Learned(cloud, cfg), cfg) then multiset(cloud)[p] else 0)
    ensures |out.grid| == CellCount
    ensures forall k :: 0 <= k < CellCount ==>
      out.grid[k] == (if Hit(out.filtered, k) then Occupied else Free)
  {
    var filtered := Filter(cloud, Learned(cloud, cfg), cfg);
    Frame(filtered, Rasterize(filtered))
  }

  /** A point of zero range, whose elevation is therefore undefined, is neither trained on nor emitted. */
  lemma ZeroRangeDropped(cloud: seq<Point>, cfg: Config, p: Point)
    requires WellFormed(p) && p.d == 0.0
    ensures forall k :: 0 <= k < SlotCount ==> !TrainsInto(p, cfg, k)
    ensures p !in Scan(cloud, cfg).filtered
  {
    assert p.alpha.None?;
    forall j | 0 <= j < RingCount {
      NoElevationNoRing(p, j);
    }
    NoRingDropped(p, Learned(cloud, cfg), cfg);
    assert multiset(Scan(cloud, cfg).filtered)[p] == 0;
  }

  /** A point of ring j with x > 0 inside the corridor trains exactly the Front slot j. */
  lemma FrontSlot(p: Point, cfg: Config, j: nat, k: nat)
    requires j < RingCount && k < SlotCount
    requires InWindow(p.alpha, j) && p.x > 0.0 && InCorridor(p, cfg)
    ensures TrainsInto(p, cfg, k) <==> k == j
  {
    if TrainsInto(p, cfg, k) {
      WindowsDisjoint(p.alpha, j, SlotRing(k));
    }
  }

  /** A point of ring j with x < 0 inside the corridor trains exactly the Back slot 7 + j. */
  lemma BackSlot(p: Point, cfg: Config, j: nat, k: nat)
    requires j < RingCount && k < SlotCount
    requires InWindow(p.alpha, j) && p.x < 0.0 && InCorridor(p, cfg)
    ensures TrainsInto(p, cfg, k) <==> k == RingCount + j
  {
    if TrainsInto(p, cfg, k) {
      WindowsDisjoint(p.alpha, j, SlotRing(k));
    }
  }

  /**
   * A frame of N returns of one front point of ring j, inside the corridor:
   * the ring's background becomes exactly that range, every copy is
   * suppressed and the grid stays free.
   */
  lemma UniformBackgroundSuppressed(p: Point, n: nat, cfg: Config, j: nat)
    requires n >= 1 && j < RingCount
    requires InWindow(p.alpha, j) && FrontWedge(p) && InCorridor(p, cfg)
    requires Tol(cfg, j) > 0.0
    ensures Learned(Repeat(p, n), cfg)[j] == p.d
    ensures Scan(Repeat(p, n), cfg).filtered == []
    ensures forall k :: 0 <= k < CellCount ==> Scan(Repeat(p, n), cfg).grid[k] == Free
  {
    var cloud := Repeat(p, n);
    var t := Tol(cfg, j);
    var bg := Learned(cloud, cfg);
    assert bg[j] == p.d by {
      FrontSlot(p, cfg, j, j);
      RoutedRepeat(p, n, cfg, j);
      IdenticalSamples(p.d, n, t);
      ReduceSingle(p.d, n);
    }
    assert !Keep(p, bg, cfg) by {
      KeepFront(p, bg, cfg, j);
    }
    FilterIsSelection(cloud, bg, cfg);
    KeptRepeat(p, n, bg, cfg);
  }

  /**
   * Two clusters in the front wedge of one ring, more than a tolerance apart:
   * n returns of p followed by m of q. The larger cluster (p on a tie, being
   * first) becomes the background and is suppressed; the other survives whole
   * and in order.
   */
  lemma TwoClustersSeparated(p: Point, n: nat, q: Point, m: nat, cfg: Config, j: nat)
    requires n >= 1 && m >= 1 && j < RingCount
    requires InWindow(p.alpha, j) && FrontWedge(p) && InCorridor(p, cfg)
    requires InWindow(q.alpha, j) && FrontWedge(q) && InCorridor(q, cfg)
    requires Tol(cfg, j) > 0.0
    requires p.d - q.d > Tol(cfg, j) || q.d - p.d > Tol(cfg, j)
    ensures Learned(Repeat(p, n) + Repeat(q, m), cfg)[j] == if m > n then q.d else p.d
    ensures Scan(Repeat(p, n) + Repeat(q, m), cfg).filtered == if m > n then Repeat(p, n) else Repeat(q, m)
  {
    var a, b := Repeat(p, n), Repeat(q, m);
    var cloud := a + b;
    var t := Tol(cfg, j);
    FrontSlot(p, cfg, j, j);
    FrontSlot(q, cfg, j, j);
    RoutedAppend(a, b, cfg, j);
    RoutedRepeat(p, n, cfg, j);
    RoutedRepeat(q, m, cfg, j);
    TwoClusters(p.d, n, q.d, m, t);
    ReduceTwo(p.d, n, q.d, m);
    var bg := Learned(cloud, cfg);
    assert bg[j] == if m > n then q.d else p.d;
    KeepFront(p, bg, cfg, j);
    KeepFront(q, bg, cfg, j);
    FilterIsSelection(cloud, bg, cfg);
    KeptAppend(a, b, bg, cfg);
    KeptRepeat(p, n, bg, cfg);
    KeptRepeat(q, m, bg, cfg);
    if m > n {
      assert Kept(cloud, bg, cfg) == a + [];
    } else {
      assert Kept(cloud, bg, cfg) == [] + b;
    }
  }
}

=== FILE: seqs.dfy ===
/** Small sequence helpers shared by the histogram, training, filter, grid and pipeline modules. */
module Seqs {

  /** n copies of x. */
  function Repeat<T>(x: T, n: nat): (r: seq<T>)
    ensures |r| == n
    ensures forall i :: 0 <= i < n ==> r[i] == x
  {
    if n == 0 then [] else [x] + Repeat(x, n - 1)
  }

  /**
   * One step of an order-preserving selection: if rest holds exactly the
   * selected elements of the tail, with their multiplicities, then adding the
   * head when selected does the same for the whole sequence.
   */
  lemma SelectStep<T>(s: seq<T>, head: seq<T>, rest: seq<T>, keep: T -> bool)
    requires |s| > 0
    requires head == if keep(s[0]) then [s[0]] else []
    requires forall x :: multiset(rest)[x] == (if keep(x) then multiset(s[1..])[x] else 0)
    ensures forall x :: multiset(head + rest)[x] == (if keep(x) then multiset(s)[x] else 0)
  {
    assert s == [s[0]] + s[1..];
    assert multiset(s) == multiset{s[0]} + multiset(s[1..]);
    assert multiset(head + rest) == multiset(head) + multiset(rest);
  }
}

=== FILE: training.dfy ===
/**
 * The training pass of Obstacle_Detection::scan: every point in a ring window
 * and inside the lateral corridor feeds its range into the histogram of its
 * ring and side. Slot j holds Front ring j, slot 7 + j Back ring j, which is
 * also the layout of the 14 background ranges.
 */
module Training {
  import opened Geometry
  import opened Histogram
  import opened Seqs

  /** The ring a histogram slot belongs to. */
  function SlotRing(k: nat): nat
    requires k < SlotCount
  {
    if k < RingCount then k else k - RingCount
  }

  /**
   * Point p trains slot k: its elevation is in the ring's window, it is inside
   * the corridor, and it lies ahead (x > 0, Front slots) or behind (x < 0, Back slots).
   */
  predicate TrainsInto(p: Point, cfg: Config, k: nat) {
    && k < SlotCount
    && InWindow(p.alpha, SlotRing(k))
    && InCorridor(p, cfg)
    && (if k < RingCount then p.x > 0.0 else p.x < 0.0)
  }

  /** Fourteen empty histograms, as at the start of every frame. */
  const NoHistograms: seq<Hist> := Repeat([], SlotCount)

  /** Histogram slot k after one more sample d of its ring. */
  function Feed(hs: seq<Hist>, k: nat, d: real, cfg: Config): seq<Hist>
    requires |hs| == SlotCount && k < SlotCount
  {
    hs[k := Insert(hs[k], d, Tol(cfg, SlotRing(k)))]
  }

  /** A point in ring j's window can only train the two slots of ring j. */
  lemma SlotsOfRing(p: Point, cfg: Config, j: nat)
    requires InWindow(p.alpha, j)
    ensures forall k :: 0 <= k < SlotCount && TrainsInto(p, cfg, k) ==> SlotRing(k) == j
  {
    forall k | 0 <= k < SlotCount && TrainsInto(p, cfg, k)
      ensures SlotRing(k) == j
    {
      WindowsDisjoint(p.alpha, SlotRing(k), j);
    }
  }

  /**
   * The ring loop of the training pass resumed at ring j: it stops once the
   * point has been allocated, and moves on to the next ring when the window
   * matches but the side or corridor test fails.
   */
  function TrainFrom(hs: seq<Hist>, p: Point, cfg: Config, j: nat): (r: seq<Hist>)
    requires |hs| == SlotCount && j <= RingCount
    decreases RingCount - j
    ensures |r| == SlotCount
    ensures forall k :: 0 <= k < SlotCount ==>
      r[k] == (if TrainsInto(p, cfg, k) && SlotRing(k) >= j then Insert(hs[k], p.d, Tol(cfg, SlotRing(k))) else hs[k])
  {
    if j == RingCount then hs
    else if InWindow(p.alpha, j) then
      var front := p.x > 0.0 && -cfg.yLimit < p.y && p.y < cfg.yLimit;
      var hs1 := if front then Feed(hs, j, p.d, cfg) else hs;
      var back := p.x < 0.0 && -cfg.yLimit < p.y && p.y < cfg.yLimit;
      var hs2 := if back then Feed(hs1, RingCount + j, p.d, cfg) else hs1;
      SlotsOfRing(p, cfg, j);
      if front || back then hs2 else TrainFrom(hs2, p, cfg, j + 1)
    else
      TrainFrom(hs, p, cfg, j + 1)
  }

  /** One point of the training pass. */
  function TrainPoint(hs: seq<Hist>, p: Point, cfg: Config): (r: seq<Hist>)
    requires |hs| == SlotCount
    ensures |r| == SlotCount
    ensures forall k :: 0 <= k < SlotCount ==>
      r[k] == (if TrainsInto(p, cfg, k) then Insert(hs[k], p.d, Tol(cfg, SlotRing(k))) else hs[k])
  {
    TrainFrom(hs, p, cfg, 0)
  }

  /** A point trains at most one of the 14 histograms. */
  lemma AtMostOneSlot(p: Point, cfg: Config, k1: nat, k2: nat)
    requires TrainsInto(p, cfg, k1) && TrainsInto(p, cfg, k2)
    ensures k1 == k2
  {
    WindowsDisjoint(p.alpha, SlotRing(k1), SlotRing(k2));
  }

  /** Points on the y-z plane, outside the corridor, or in no ring window (zero range included) train nothing. */
  lemma Untrained(hs: seq<Hist>, p: Point, cfg: Config)
    requires |hs| == SlotCount
    requires p.x == 0.0 || !InCorridor(p, cfg) || forall j :: 0 <= j < RingCount ==> !InWindow(p.alpha, j)
    ensures TrainPoint(hs, p, cfg) == hs
  {
    var r := TrainPoint(hs, p, cfg);
    forall k | 0 <= k < SlotCount
      ensures r[k] == hs[k]
    {
      assert !TrainsInto(p, cfg, k);
    }
  }

  /** The training pass over a cloud, continued from histograms hs. */
  function TrainAll(hs: seq<Hist>, cloud: seq<Point>, cfg: Config): (r: seq<Hist>)
    requires |hs| == SlotCount
    ensures |r| == SlotCount
    ensures forall k :: 0 <= k < SlotCount && (forall i :: 0 <= i < |cloud| ==> !TrainsInto(cloud[i], cfg, k)) ==>
      r[k] == hs[k]
    decreases |cloud|
  {
    if |cloud| == 0 then hs else TrainAll(TrainPoint(hs, cloud[0], cfg), cloud[1..], cfg)
  }

  /** The ranges of the points of cloud that train slot k, in cloud order. */
  function Routed(cloud: seq<Point>, cfg: Config, k: nat): (ds: seq<real>)
    ensures |ds| <= |cloud|
  {
    if |cloud| == 0 then []
    else (if TrainsInto(cloud[0], cfg, k) then [cloud[0].d] else []) + Routed(cloud[1..], cfg, k)
  }

  lemma {:induction false} TrainAllRouted(hs: seq<Hist>, cloud: seq<Point>, cfg: Config, k: nat)
    requires |hs| == SlotCount && k < SlotCount
    ensures TrainAll(hs, cloud, cfg)[k] == InsertAll(hs[k], Routed(cloud, cfg, k), Tol(cfg, SlotRing(k)))
    decreases |cloud|
  {
    if |cloud| > 0 {
      var t := Tol(cfg, SlotRing(k));
      var hs1 := TrainPoint(hs, cloud[0], cfg);
      TrainAllRouted(hs1, cloud[1..], cfg, k);
      var rest := Routed(cloud[1..], cfg, k);
      if TrainsInto(cloud[0], cfg, k) {
        assert Routed(cloud, cfg, k) == [cloud[0].d] + rest;
        assert ([cloud[0].d] + rest)[1..] == rest;
      } else {
        assert Routed(cloud, cfg, k) == rest;
      }
    }
  }

  lemma TrainRouted(cloud: seq<Point>, cfg: Config)
    ensures forall k :: 0 <= k < SlotCount ==>
      TrainAll(NoHistograms, cloud, cfg)[k] == InsertAll([], Routed(cloud, cfg, k), Tol(cfg, SlotRing(k)))
  {
    forall k | 0 <= k < SlotCount
      ensures TrainAll(NoHistograms, cloud, cfg)[k] == InsertAll([], Routed(cloud, cfg, k), Tol(cfg, SlotRing(k)))
    {
      TrainAllRouted(NoHistograms, cloud, cfg, k);
    }
  }

  /**
   * The training pass of a frame: each of the 14 histograms is the first-fit
   * clustering, at its ring's tolerance, of exactly the ranges of the points
   * routed to it, in cloud order.
   */
  function Train(cloud: seq<Point>, cfg: Config): (hs: seq<Hist>)
    ensures |hs| == SlotCount
    ensures forall k :: 0 <= k < SlotCount ==>
      hs[k] == InsertAll([], Routed(cloud, cfg, k), Tol(cfg, SlotRing(k)))
  {
    TrainRouted(cloud, cfg);
    TrainAll(NoHistograms, cloud, cfg)
  }

  /** Slot k of a trained frame counts exactly the points routed to it. */
  lemma TrainedCounts(cloud: seq<Point>, cfg: Config, k: nat)
    requires k < SlotCount
    ensures TotalCount(Train(cloud, cfg)[k]) == |Routed(cloud, cfg, k)|
    ensures |Train(cloud, cfg)[k]| <= |Routed(cloud, cfg, k)|
  {
    var ds := Routed(cloud, cfg, k);
    var t := Tol(cfg, SlotRing(k));
    assert Train(cloud, cfg)[k] == InsertAll([], ds, t);
    InsertAllCounts([], ds, t);
    assert TotalCount([]) == 0;
  }

  lemma {:induction false} RoutedAppend(a: seq<Point>, b: seq<Point>, cfg: Config, k: nat)
    ensures Routed(a + b, cfg, k) == Routed(a, cfg, k) + Routed(b, cfg, k)
    decreases |a|
  {
    if |a| == 0 {
      assert a + b == b;
    } else {
      assert (a + b)[0] == a[0];
      assert (a + b)[1..] == a[1..] + b;
      RoutedAppend(a[1..], b, cfg, k);
    }
  }

  /** n copies of one point route n copies of its range to its slot and nothing elsewhere. */
  lemma {:induction false} RoutedRepeat(p: Point, n: nat, cfg: Config, k: nat)
    ensures Routed(Repeat(p, n), cfg, k) == if TrainsInto(p, cfg, k) then Repeat(p.d, n) else []
  {
    if n > 0 {
      var c := Repeat(p, n);
      assert c[0] == p && c[1..] == Repeat(p, n - 1);
      RoutedRepeat(p, n - 1, cfg, k);
    }
  }
}
